=== FILE: README.md ===
# Exchange simulator: order books, sequencing and admission in Dafny

This project models the sequential logic of a small securities-exchange
simulator written in JavaScript. Clients stream orders from CSV lines, a
gateway admits them, an order manager stamps each with a sequence number,
and a market-data publisher and a dashboard keep order books up to date.
The matching engine itself lives in a module that is not part of this model.

Modules, one per source file or shared concept:

- `Outcomes` (outcomes.dfy): `Option`, `Result` and the JavaScript exceptions the code can raise.
- `Messages` (messages.dfy): JSON values and records, with `undefined` as a missing field.
- `OrderBook` (order_book.dfy): the order book kept in the market-data publisher's directory, a book of individual resting orders
  (`market_data_publisher/orderbook.js`). Each heap is modelled as the sequence
  of its nodes; contracts speak of the orders held, never of heap layout.
- `LevelBook` (level_book.dfy): aggregated books, price to total quantity,
  and the four-symbol start state that the publisher and the dashboard share.
- `MarketData` (market_data.dfy): the publisher's order and execution updates
  (`market_data_publisher/main.js`).
- `Dashboard` (dashboard.dfy): the dashboard's level update (`exchange-dashboard/src/App.jsx`).
- `OrderManager` (order_manager.dfy): the sequential number generator and the
  order stamping (`order_manager/main.js`).
- `Gateway` (gateway.dfy): the admission check (`client_gateway/main.js`).
- `OrderStreamer` (order_streamer.dfy): CSV line splitting and parsing
  (`client_order_streamer/main.js`).

Operations that mutate objects in place in JavaScript are pure functions
here: they take the old state and return the new one. Where the JavaScript
throws (a property read on an unknown symbol's missing book, a failed
assertion), the model returns `Failure` with the exception kind. Prices and
quantities are unbounded integers, whereas JavaScript numbers are doubles
that stop representing every integer beyond 2^53; `Number`/`isNaN`,
`parseFloat` and `parseInt` are function parameters.

Price-time priority would break equal-price ties by sequence number, and a
best-first snapshot would list bids descending. The code does neither: it
compares price only and sorts both snapshot sides ascending. The model
follows the code and states those facts as lemmas
(`OrderBook.TopIgnoresSecnum`, `OrderBook.LaterAskCanBeTop`,
`OrderBook.SnapshotEndsAtTops`).

## Model

| member | source | states |
|---|---|---|
| `OrderBook.DefaultOrder` | market_data_publisher/orderbook.js:10-17 | an order built with no arguments has side "", price 0, quantity 0, sequence number 0 |
| `OrderBook.OrderArgumentsDefaultSeparately` | market_data_publisher/orderbook.js:11 | each constructor argument defaults on its own: omitted trailing arguments become 0 while given ones are kept |
| `OrderBook.NewBook` | market_data_publisher/orderbook.js:20-25 | exactly the listed symbols get a book (none when no list is given), each with an empty ask side and an empty bid side |
| `OrderBook.Compare` | market_data_publisher/orderbook.js:5-6 | the comparator is 0 exactly on equal prices; the ask comparator is negative exactly when the first price is lower, the bid comparator exactly when it is higher |
| `OrderBook.Top` | market_data_publisher/orderbook.js:5-6 | the heap top exists exactly when the side is non-empty, is one of its orders, and no order ranks strictly before it under the side's comparator |
| `OrderBook.BestAskIsMinPrice` | market_data_publisher/orderbook.js:5 | an order is a possible best ask exactly when it is on the side and no ask is cheaper |
| `OrderBook.BestBidIsMaxPrice` | market_data_publisher/orderbook.js:6 | an order is a possible best bid exactly when it is on the side and no bid is dearer |
| `OrderBook.TopIgnoresSecnum` | market_data_publisher/orderbook.js:5-6 | only price is compared: any order at the top's price is an equally valid top and compares equal to it both ways |
| `OrderBook.LaterAskCanBeTop` | market_data_publisher/orderbook.js:5 | two asks at one price: the later-sequenced one can come out first, so arrival gives no priority |
| `OrderBook.AddOrder` | market_data_publisher/orderbook.js:28-37 | an "ask" order joins the asks and a "bid" order the bids (multiset grows by that order), the other side and every other symbol stay; an unknown symbol or other side value changes nothing |
| `OrderBook.ScanFrom` | market_data_publisher/orderbook.js:75-80 | the scan from position i answers -1 exactly when no order carries the sequence number, else the first position that does |
| `OrderBook.FindOrderIndex` | market_data_publisher/orderbook.js:74-81 | returns the first position whose order has the sequence number, or -1 exactly when no order has it |
| `OrderBook.FindOrderIndexAsWritten` | market_data_publisher/orderbook.js:76 | the loop as written answers only for an empty heap (-1) and throws a TypeError on any non-empty heap |
| `OrderBook.FindOrderIndexAsWrittenMissesOrder` | market_data_publisher/orderbook.js:76 | a heap holding sequence number 1 at position 0: the intended lookup answers 0, the code as written throws |
| `OrderBook.AdjustSide` | market_data_publisher/orderbook.js:47-65 | unknown sequence number: side unchanged; the first matching order holding more than the amount drops by exactly that amount, all other positions kept; otherwise exactly that order is removed; positive quantities stay positive |
| `OrderBook.RemovalKeepsOthers` | market_data_publisher/orderbook.js:59-65 | removal takes exactly one copy of the matched order out of the side's multiset and keeps every other order |
| `OrderBook.ReductionLowersTotal` | market_data_publisher/orderbook.js:57-58 | a reduction lowers the side's total quantity by exactly the amount removed |
| `OrderBook.AdjustOrRemoveOrder` | market_data_publisher/orderbook.js:39-71 | intended reduce-or-remove: unknown symbol leaves the book; side "ask" adjusts the asks, any other side the bids; the other side and all other symbols are unchanged |
| `OrderBook.AdjustUnknownSecnumIsNoOp` | market_data_publisher/orderbook.js:50-53 | a sequence number absent from the addressed side leaves the whole book unchanged |
| `OrderBook.AdjustOrRemoveOrderAsWritten` | market_data_publisher/orderbook.js:40-41 | the method as written throws a TypeError on every call, before touching the book |
| `OrderBook.AdjustAsWrittenNeverAdjusts` | market_data_publisher/orderbook.js:40-41 | ask 1 for 5 on AAPL, reduced by 2: the intended method leaves quantity 3, the code as written throws |
| `OrderBook.InsertByPrice` | market_data_publisher/orderbook.js:87-88 | inserting into a price-sorted side keeps it sorted and adds exactly that order |
| `OrderBook.SortByPrice` | market_data_publisher/orderbook.js:87-88 | the comparator sort yields a permutation of its input in ascending price order |
| `OrderBook.ToJson` | market_data_publisher/orderbook.js:83-92 | the snapshot lists every symbol of the book and no other; each side is a permutation of that side sorted ascending by price, bids included |
| `OrderBook.SortedEnds` | market_data_publisher/orderbook.js:87-88 | a sorted side starts at the best ask's price and ends at the best bid's price |
| `OrderBook.SnapshotEndsAtTops` | market_data_publisher/orderbook.js:85-89 | published asks start at the best ask's price; published bids end (not start) at the best bid's price |
| `LevelBook.InitialBooks` | market_data_publisher/main.js:8-13 | the start state holds exactly AAPL, GOOGL, MSFT and AMZN, each with empty bid and ask levels |
| `LevelBook.QuantityAt` | market_data_publisher/main.js:71 | the quantity read for a price is the level's quantity, or 0 when the price has no level |
| `LevelBook.SideOf` | market_data_publisher/main.js:83 | side "bid" selects the bid levels and every other side string the ask levels |
| `LevelBook.WithSide` | exchange-dashboard/src/App.jsx:60-61 | writing back the side a side string selects replaces that side only: "bid" leaves the asks, any other string leaves the bids |
| `LevelBook.AddQuantity` | market_data_publisher/main.js:71 | the level at the price becomes its old quantity (0 if absent) plus the quantity; every other level is kept |
| `MarketData.ExecuteAt` | market_data_publisher/main.js:85-92 | an absent level is left alone; a remainder of exactly 0 deletes the level; any other remainder, negative included, is stored; other levels are kept |
| `MarketData.ProcessOrder` | market_data_publisher/main.js:65-79 | "bid" adds to the bid level and "ask" to the ask level, other side and symbols untouched; any other type changes nothing; it fails exactly for a bid or ask on an unknown symbol (a TypeError), so a known symbol is always updated |
| `MarketData.ProcessExecution` | market_data_publisher/main.js:81-96 | side "bid" hits the bids and anything else the asks; it fails exactly on an unknown symbol (a TypeError), so a known symbol is always updated; a price with no level is a no-op; only the addressed symbol and side change |
| `MarketData.AddThenExecuteRestores` | market_data_publisher/main.js:85-91 | adding q at p and then executing q at p restores the level map unless the level held exactly 0 |
| `MarketData.ZeroLevelIsNotRestored` | market_data_publisher/main.js:86-88 | a level at 0 is deleted, not restored, by that round trip |
| `MarketData.OrderThenExecutionRestores` | market_data_publisher/main.js:69-91 | an order of q at p followed by its execution on the same side leaves every symbol's book as it was, given no zero level at p |
| `Dashboard.InitialOrderBooks` | exchange-dashboard/src/App.jsx:6-11 | the dashboard starts with AAPL, GOOGL, MSFT and AMZN, every side empty |
| `Dashboard.ExecuteAt` | exchange-dashboard/src/App.jsx:68-75 | an absent level is left alone; the level is deleted when the remainder is 0 or less, otherwise the remainder is stored |
| `Dashboard.UpdateOrderBook` | exchange-dashboard/src/App.jsx:55-79 | fails exactly on an unknown symbol (a TypeError), whatever the kind, so a known symbol is always updated; "order" adds to the level, "execution" subtracts with deletion at or below 0, any other kind changes nothing; side "bid" picks bids and anything else asks; other side and symbols unchanged |
| `Dashboard.ExecutionLeavesNoNonPositiveLevel` | exchange-dashboard/src/App.jsx:69-74 | after an execution on an existing level, a level left at that price is positive |
| `Dashboard.UpdatesKeepLevelsPositive` | exchange-dashboard/src/App.jsx:63-74 | if all levels of the symbol are positive, they stay positive after any execution and after any order of positive quantity |
| `Dashboard.ExecutionAgreesWithPublisher` | exchange-dashboard/src/App.jsx:68-75 | the dashboard and the publisher compute the same levels after an execution exactly when the remainder is not negative |
| `Dashboard.OrderAgreesWithPublisher` | exchange-dashboard/src/App.jsx:60-65 | for side "bid" or "ask", the dashboard's order update equals the publisher's |
| `OrderManager.NewGenerator` | order_manager/main.js:40-42 | a generator starts at the given value, 1 when none is given |
| `OrderManager.GetNext` | order_manager/main.js:44-46 | returns the current value and leaves the counter exactly one higher |
| `OrderManager.DefaultGeneratorStartsAtOne` | order_manager/main.js:40-45 | a generator built with no argument returns 1 first |
| `OrderManager.Draw` | order_manager/main.js:44-45 | n calls from start s return s, s+1, ..., s+n-1 and leave the counter at s+n |
| `OrderManager.DrawNeverRepeats` | order_manager/main.js:44-45 | successive values are strictly increasing, so no value is returned twice |
| `OrderManager.DrawComposes` | order_manager/main.js:44-45 | m calls followed by n calls hand out the same values, and end in the same state, as m+n calls |
| `OrderManager.ProcessOrder` | order_manager/main.js:96-104 | `id` becomes the next sequence number; price and quantity are the conversions of the old fields; `user_id`, `timestamp_ns`, `trader_type` are gone; every other field, `symbol` and `order_type` included, is unchanged |
| `OrderManager.ProcessOrders` | order_manager/main.js:96-97 | orders processed in turn from start s get ids s, s+1, ... |
| `OrderManager.ProcessOrdersElementwise` | order_manager/main.js:96-104 | the i-th output of a batch is the i-th input processed by a generator that has handed out i values: id s+i, converted price and quantity, the three fields deleted, every other field kept |
| `OrderManager.ProcessedIdsIncrease` | order_manager/main.js:97 | a later-processed order always has a strictly larger id |
| `Gateway.ValidateOrder` | client_gateway/main.js:10-36 | an admitted order has a string `user_id`, numeric timestamp, price and quantity, a 4-5 character string symbol, order type exactly "ask" or "bid", and one of the three trader types |
| `Gateway.ValidateOrderComplete` | client_gateway/main.js:20-35 | an order meeting every field check is admitted |
| `Gateway.OrderTypeIsCaseSensitive` | client_gateway/main.js:28 | an order type of "BID" is refused: the comparison is strict |
| `Gateway.StreamedOrderAdmission` | client_gateway/main.js:20-31 | for an order read from a CSV line, admission holds exactly when the numeric checks, the symbol length and the two classifications hold |
| `OrderStreamer.Split` | client_order_streamer/main.js:32 | splitting yields one more piece than the line has commas, and no piece holds a comma |
| `OrderStreamer.SplitJoin` | client_order_streamer/main.js:32 | splitting the comma-join of comma-free fields returns those fields |
| `OrderStreamer.JoinSplit` | client_order_streamer/main.js:32 | joining the pieces of any line with commas returns the line |
| `OrderStreamer.ParseLine` | client_order_streamer/main.js:31-43 | a line not splitting into exactly 7 fields throws an assertion error; otherwise field i becomes user_id, timestamp_ns, price, symbol, quantity, order_type, trader_type in that order, verbatim |
| `OrderStreamer.ParseLineAcceptsSixCommas` | client_order_streamer/main.js:32-33 | a line parses exactly when it contains six commas |
| `OrderStreamer.ParseFormatRoundTrip` | client_order_streamer/main.js:32-42 | seven comma-free fields joined with commas parse back to the same seven fields |
| `OrderStreamer.CommaInFieldIsRejected` | client_order_streamer/main.js:32-33 | with no quoting, a comma inside any of seven fields makes the line fail to parse |
| `OrderStreamer.ToRecord` | client_order_streamer/main.js:34-42 | the parsed order becomes a JSON object with exactly the seven column names, field i as a string under column i (user_id, timestamp_ns, price, symbol, quantity, order_type, trader_type) |
| `OrderStreamer.ParsedLineColumns` | client_order_streamer/main.js:32-42 | for a line that parses, the i-th comma-separated piece appears verbatim under the i-th column name |

## Left out

- The matching engine (`MatchingEngine`, `EngineOrder`): it is imported from a module that is not part of this model, so matching, fills and crossing are not modelled.
- `order_manager/redis_engine.js` and `market_data_publisher/redisUtils.js`: cache I/O around the engine, no sequential logic of their own.
- Transport: RabbitMQ, Kafka, WebSocket and file streaming in every service, `publishToDashboard`, acknowledgements, and the React state plumbing and rendering of the dashboard.
- Numeric conversion: `Number`/`isNaN`, `parseFloat` and `parseInt` are function parameters; prices are integers, not floating-point numbers.
- Logging: the `console.log` calls of `adjustOrRemoveOrder` (market_data_publisher/orderbook.js:43-46, 51, 67-70) are output only and are not modelled.
- Heap internals: the heap library's array layout, `push`, `pop`, `toArray` and re-heapify are not modelled; a side is the sequence of its orders and positions refer to that sequence.
- `OrderBook.AdjustOrRemoveOrder`: models the intended method. Besides the read at line 41, the code as written has a stray `cons;` (line 49, a ReferenceError), reads `heap.nodes[i].order` (line 56) and removes with `pop()` (lines 61-62), which takes the heap top instead of the moved last node. The last depends on heap internals and is not modelled.
- `OrderBook.ToJson`: does not state that the sort is stable; the order among equal prices comes from the heap's internal array, which the model does not fix.
- `OrderBook.Top`: picks the first minimal order of the sequence; which equally priced order the real heap returns is left to its internals.
- `OrderManager.GetNext`: does not model the double-precision counter; from 2^53 on, `this.current++` no longer advances, so a generator started at 2^53 hands out 2^53 twice. `OrderManager.Draw`, `OrderManager.DrawNeverRepeats`, `OrderManager.ProcessOrders` and `OrderManager.ProcessedIdsIncrease` inherit this: their consecutive, never-repeating values hold only while the counter stays below 2^53.
- `OrderManager.DrawNeverRepeats`: holds for unbounded integers only; in JavaScript values repeat once the counter reaches 2^53 (see `OrderManager.GetNext`).
- `MarketData.AddThenExecuteRestores`: level arithmetic is exact here; in JavaScript a sum beyond 2^53 rounds (a level of 1 plus 2^53 becomes 2^53, so the execution leaves 0 and deletes the level), and the round trip, with `MarketData.OrderThenExecutionRestores`, holds only while level sums stay exactly representable.
- `Gateway.ValidateOrder`: symbol length is counted in characters, not UTF-16 code units.
- `Dashboard.UpdateOrderBook`: the publisher's "order" messages carry `order_type`, not `side`; which side such a message lands on depends on the unseen message producer, so the model takes `side` as given.

## Findings

| source | as written | input that shows it | evidently intended | confidence | as-written member | corrected member |
|---|---|---|---|---|---|---|
| market_data_publisher/orderbook.js:76 | compares `heap.nodes[i].order.secnum`, but the heap holds the pushed orders themselves, so `.order` is undefined and the read throws | a heap holding `Order("ask", 100, 5, 1)`, looking up sequence number 1 | compare `heap.nodes[i].secnum` and answer 0 | medium; not executed | `OrderBook.FindOrderIndexAsWrittenMissesOrder` | `OrderBook.FindOrderIndex` |
| market_data_publisher/orderbook.js:41 | reads `this.symbol_order_book.symbol_order_book_map`; the book has no `symbol_order_book` field, so every call throws | AAPL holding ask 1 for 5, reduce it by 2 | read `this.symbol_order_book_map` and leave the ask at 3 | high; not executed | `OrderBook.AdjustAsWrittenNeverAdjusts` | `OrderBook.AdjustOrRemoveOrder` |

=== FILE: dashboard.dfy ===
/**
  The dashboard's copy of the aggregated book, updated from the publisher's
  "order" and "execution" messages. It differs from the publisher in one
  rule: an execution deletes a level whose remainder is zero or less.
 */
module Dashboard {
  import opened Outcomes
  import opened LevelBook
  import MarketData

  /** The fields of a published message that the update reads. */
  datatype UpdateData = UpdateData(symbol: string, price: int, quantity: int, side: string)

  /** The dashboard's start state: the same four empty symbols as the publisher. */
  function InitialOrderBooks(): (b: LevelBooks)
    ensures b.Keys == Symbols
    ensures forall s :: s in b ==> b[s].bids == map[] && b[s].asks == map[]
  {
    InitialBooks()
  }

  /** Takes an executed quantity off a level, deleting the level when the
      remainder is not positive; an absent level is left alone. */
  function ExecuteAt(m: Levels, price: int, quantity: int): (r: Levels)
    ensures price !in m ==> r == m
    ensures price in m ==> (price in r <==> m[price] - quantity > 0)
    ensures price in r && price in m ==> r[price] == m[price] - quantity
    ensures forall p :: p != price ==> (p in r <==> p in m)
    ensures forall p :: p in r && p != price ==> r[p] == m[p]
  {
    if price in m then
      var remaining := m[price] - quantity;
      if remaining <= 0 then m - {price} else m[price := remaining]
    else m
  }

  /** Applies one message of kind `kind` to the symbol's side named by
      `data.side` ("bid" the bids, anything else the asks). An unknown symbol
      throws before the kind is looked at; a kind other than "order" and
      "execution" changes nothing. */
  function UpdateOrderBook(books: LevelBooks, data: UpdateData, kind: string): (r: Result<LevelBooks, JsError>)
    ensures r.Failure? <==> data.symbol !in books
    ensures r.Failure? ==> r.error == TypeError
    ensures r.Success? ==> r.value.Keys == books.Keys
    ensures r.Success? ==> forall s :: s in books && s != data.symbol ==> r.value[s] == books[s]
    ensures r.Success? && data.side == "bid" ==> r.value[data.symbol].asks == books[data.symbol].asks
    ensures r.Success? && data.side != "bid" ==> r.value[data.symbol].bids == books[data.symbol].bids
    ensures r.Success? && kind == "order" ==>
              SideOf(r.value[data.symbol], data.side)
              == AddQuantity(SideOf(books[data.symbol], data.side), data.price, data.quantity)
    ensures r.Success? && kind == "execution" ==>
              SideOf(r.value[data.symbol], data.side)
              == ExecuteAt(SideOf(books[data.symbol], data.side), data.price, data.quantity)
    ensures r.Success? && kind != "order" && kind != "execution" ==> r.value == books
  {
    if data.symbol !in books then Failure(TypeError)
    else
      var s := books[data.symbol];
      var orders := SideOf(s, data.side);
      if kind == "order" then
        Success(books[data.symbol := WithSide(s, data.side, AddQuantity(orders, data.price, data.quantity))])
      else if kind == "execution" then
        Success(books[data.symbol := WithSide(s, data.side, ExecuteAt(orders, data.price, data.quantity))])
      else
        Success(books)
  }

  /** No execution leaves a level that is zero or negative at its price. */
  lemma ExecutionLeavesNoNonPositiveLevel(books: LevelBooks, data: UpdateData)
    requires data.symbol in books
    ensures var r := UpdateOrderBook(books, data, "execution").value;
            var side := SideOf(r[data.symbol], data.side);
            data.price in side && data.price in SideOf(books[data.symbol], data.side) ==> side[data.price] > 0
  {
  }

  /** Positive levels stay positive under every execution and under every
      order of positive quantity. */
  lemma UpdatesKeepLevelsPositive(books: LevelBooks, data: UpdateData, kind: string)
    requires data.symbol in books
    requires AllPositive(books[data.symbol].bids) && AllPositive(books[data.symbol].asks)
    requires kind == "order" ==> data.quantity > 0
    ensures var r := UpdateOrderBook(books, data, kind).value;
            AllPositive(r[data.symbol].bids) && AllPositive(r[data.symbol].asks)
  {
  }

  /** The dashboard and the publisher agree on an execution exactly when it
      does not overdraw the level: they differ only on a negative remainder,
      which the publisher stores and the dashboard deletes. */
  lemma ExecutionAgreesWithPublisher(m: Levels, price: int, quantity: int)
    ensures ExecuteAt(m, price, quantity) == MarketData.ExecuteAt(m, price, quantity)
            <==> !(price in m && m[price] - quantity < 0)
  {
  }

  /** On a "bid" or "ask" order the dashboard adds exactly what the publisher
      adds. */
  lemma OrderAgreesWithPublisher(books: LevelBooks, symbol: string, price: int, quantity: int, side: string)
    requires symbol in books
    requires side == "bid" || side == "ask"
    ensures UpdateOrderBook(books, UpdateData(symbol, price, quantity, side), "order")
            == MarketData.ProcessOrder(books, MarketData.OrderData(price, symbol, quantity, side))
  {
  }
}

=== FILE: gateway.dfy ===
/**
  The client gateway's admission check: an order is forwarded only when
  every field has the expected shape. Whether a value converts to a number
  (`!isNaN(Number(v))`) is a parameter of the model.
 */
module Gateway {
  import opened Outcomes
  import opened Messages
  import OrderStreamer

  /** The trader types the gateway admits. */
  const TraderTypes: set<string> := {"market_maker", "institutional", "retail"}

  /** `field` is present and is a string. */
  predicate IsString(order: Record, field: string)
  {
    field in order && order[field].JStr?
  }

  /** True exactly when every field check passes: `user_id` is a string,
      timestamp, price and quantity are numeric, `symbol` is a string of 4 or
      5 characters, `order_type` is "ask" or "bid", and `trader_type` is one
      of the three trader types. */
  function ValidateOrder(order: Record, isNumeric: Option<Json> -> bool): (ok: bool)
    ensures ok ==> IsString(order, "user_id")
    ensures ok ==> isNumeric(Field(order, "timestamp_ns"))
    ensures ok ==> isNumeric(Field(order, "price"))
    ensures ok ==> isNumeric(Field(order, "quantity"))
    ensures ok ==> IsString(order, "symbol") && 4 <= |order["symbol"].s| <= 5
    ensures ok ==> Field(order, "order_type") == Some(JStr("ask"))
                   || Field(order, "order_type") == Some(JStr("bid"))
    ensures ok ==> IsString(order, "trader_type") && order["trader_type"].s in TraderTypes
  {
    && IsString(order, "user_id")
    && isNumeric(Field(order, "timestamp_ns"))
    && isNumeric(Field(order, "price"))
    && IsString(order, "symbol")
    && |order["symbol"].s| >= 4
    && |order["symbol"].s| <= 5
    && isNumeric(Field(order, "quantity"))
    && (Field(order, "order_type") == Some(JStr("ask")) || Field(order, "order_type") == Some(JStr("bid")))
    && (|| Field(order, "trader_type") == Some(JStr("market_maker"))
        || Field(order, "trader_type") == Some(JStr("institutional"))
        || Field(order, "trader_type") == Some(JStr("retail")))
  }

  /** The checks are also sufficient: an order passing every one is admitted. */
  lemma ValidateOrderComplete(order: Record, isNumeric: Option<Json> -> bool)
    requires IsString(order, "user_id")
    requires isNumeric(Field(order, "timestamp_ns"))
    requires isNumeric(Field(order, "price"))
    requires isNumeric(Field(order, "quantity"))
    requires IsString(order, "symbol") && 4 <= |order["symbol"].s| <= 5
    requires IsString(order, "order_type") && order["order_type"].s in {"ask", "bid"}
    requires IsString(order, "trader_type") && order["trader_type"].s in TraderTypes
    ensures ValidateOrder(order, isNumeric)
  {
  }

  /** Strict equality: an order type in another case is refused. */
  lemma OrderTypeIsCaseSensitive(order: Record, isNumeric: Option<Json> -> bool)
    requires Field(order, "order_type") == Some(JStr("BID"))
    ensures !ValidateOrder(order, isNumeric)
  {
  }

  /** For an order read from a CSV line every field is a string, so `user_id`
      always passes; the verdict rests on the numeric fields, the symbol's
      length, and the two classifications. */
  lemma StreamedOrderAdmission(o: OrderStreamer.StreamedOrder, isNumeric: Option<Json> -> bool)
    ensures ValidateOrder(OrderStreamer.ToRecord(o), isNumeric)
            <==> && isNumeric(Some(JStr(o.timestampNs)))
                 && isNumeric(Some(JStr(o.price)))
                 && isNumeric(Some(JStr(o.quantity)))
                 && 4 <= |o.symbol| <= 5
                 && (o.orderType == "ask" || o.orderType == "bid")
                 && o.traderType in TraderTypes
  {
  }
}

=== FILE: level_book.dfy ===
/**
  Aggregated price-level books, as kept by the market-data publisher and by
  the dashboard: for every symbol, each side maps a price to the total
  quantity resting at that price.
 */
module LevelBook {

  /** Price to total quantity. */
  type Levels = map<int, int>

  /** The two sides of one symbol. */
  datatype SideLevels = SideLevels(bids: Levels, asks: Levels)

  /** Symbol to its two sides. */
  type LevelBooks = map<string, SideLevels>

  /** The symbols both services start with. */
  const Symbols: set<string> := {"AAPL", "GOOGL", "MSFT", "AMZN"}

  /** The start state: the four symbols, every side empty. */
  function InitialBooks(): (b: LevelBooks)
    ensures b.Keys == Symbols
    ensures |b| == 4
    ensures forall s :: s in b ==> b[s].bids == map[] && b[s].asks == map[]
  {
    map s | s in Symbols :: SideLevels(map[], map[])
  }

  /** The quantity at a price, 0 when no level exists (`get(price) || 0`). */
  function QuantityAt(m: Levels, price: int): (q: int)
    ensures price in m ==> q == m[price]
    ensures price !in m ==> q == 0
  {
    if price in m then m[price] else 0
  }

  /** Adds `quantity` to the level at `price`, creating it from 0 if absent. */
  function AddQuantity(m: Levels, price: int, quantity: int): (r: Levels)
    ensures r.Keys == m.Keys + {price}
    ensures r[price] == QuantityAt(m, price) + quantity
    ensures forall p :: p in m && p != price ==> r[p] == m[p]
  {
    m[price := QuantityAt(m, price) + quantity]
  }

  /** Every level holds a positive quantity. */
  predicate AllPositive(m: Levels)
  {
    forall p :: p in m ==> m[p] > 0
  }

  /** The side a side string addresses: "bid" the bids, anything else the asks. */
  function SideOf(s: SideLevels, side: string): (m: Levels)
    ensures side == "bid" ==> m == s.bids
    ensures side != "bid" ==> m == s.asks
  {
    if side == "bid" then s.bids else s.asks
  }

  /** Replaces the side a side string addresses. */
  function WithSide(s: SideLevels, side: string, m: Levels): (r: SideLevels)
    ensures SideOf(r, side) == m
    ensures side == "bid" ==> r.asks == s.asks
    ensures side != "bid" ==> r.bids == s.bids
  {
    if side == "bid" then s.(bids := m) else s.(asks := m)
  }
}

=== FILE: market_data.dfy ===
/**
  The market-data publisher's aggregated book: order and execution messages
  move quantity into and out of price levels.
 */
module MarketData {
  import opened Outcomes
  import opened LevelBook

  /** An "order" message: a new resting order of `orderType` "bid" or "ask". */
  datatype OrderData = OrderData(price: int, symbol: string, quantity: int, orderType: string)

  /** An "execution" message: `quantity` traded against the level at `price`. */
  datatype ExecutionData = ExecutionData(price: int, symbol: string, quantity: int, side: string)

  /** Takes an executed quantity off a level. A remainder of exactly 0
      deletes the level; any other remainder, negative included, is stored;
      an absent level is left alone. */
  function ExecuteAt(m: Levels, price: int, quantity: int): (r: Levels)
    ensures price !in m ==> r == m
    ensures price in m ==> (price in r <==> m[price] - quantity != 0)
    ensures price in r && price in m ==> r[price] == m[price] - quantity
    ensures forall p :: p != price ==> (p in r <==> p in m)
    ensures forall p :: p in r && p != price ==> r[p] == m[p]
  {
    if price in m then
      var remaining := m[price] - quantity;
      if remaining == 0 then m - {price} else m[price := remaining]
    else m
  }

  /** Adds an order's quantity to its level. A type other than "bid" or
      "ask" changes nothing; a listed type on an unknown symbol throws. */
  function ProcessOrder(books: LevelBooks, data: OrderData): (r: Result<LevelBooks, JsError>)
    ensures r.Failure? <==> (data.orderType == "bid" || data.orderType == "ask") && data.symbol !in books
    ensures data.orderType != "bid" && data.orderType != "ask" ==> r == Success(books)
    ensures r.Failure? ==> r.error == TypeError
    ensures r.Success? ==> r.value.Keys == books.Keys
    ensures r.Success? ==> forall s :: s in books && s != data.symbol ==> r.value[s] == books[s]
    ensures r.Success? && data.orderType == "bid" ==>
              && r.value[data.symbol].asks == books[data.symbol].asks
              && r.value[data.symbol].bids == AddQuantity(books[data.symbol].bids, data.price, data.quantity)
    ensures r.Success? && data.orderType == "ask" ==>
              && r.value[data.symbol].bids == books[data.symbol].bids
              && r.value[data.symbol].asks == AddQuantity(books[data.symbol].asks, data.price, data.quantity)
  {
    if data.orderType == "bid" then
      if data.symbol !in books then Failure(TypeError)
      else
        var s := books[data.symbol];
        Success(books[data.symbol := s.(bids := AddQuantity(s.bids, data.price, data.quantity))])
    else if data.orderType == "ask" then
      if data.symbol !in books then Failure(TypeError)
      else
        var s := books[data.symbol];
        Success(books[data.symbol := s.(asks := AddQuantity(s.asks, data.price, data.quantity))])
    else
      Success(books)
  }

  /** Takes an execution off the bids when its side is "bid" and off the
      asks otherwise; an unknown symbol throws whatever the side. */
  function ProcessExecution(books: LevelBooks, data: ExecutionData): (r: Result<LevelBooks, JsError>)
    ensures r.Failure? <==> data.symbol !in books
    ensures r.Failure? ==> r.error == TypeError
    ensures r.Success? ==> r.value.Keys == books.Keys
    ensures r.Success? ==> forall s :: s in books && s != data.symbol ==> r.value[s] == books[s]
    ensures r.Success? && data.side == "bid" ==>
              && r.value[data.symbol].asks == books[data.symbol].asks
              && r.value[data.symbol].bids == ExecuteAt(books[data.symbol].bids, data.price, data.quantity)
    ensures r.Success? && data.side != "bid" ==>
              && r.value[data.symbol].bids == books[data.symbol].bids
              && r.value[data.symbol].asks == ExecuteAt(books[data.symbol].asks, data.price, data.quantity)
    ensures r.Success? && data.price !in SideOf(books[data.symbol], data.side) ==> r.value == books
  {
    if data.symbol !in books then Failure(TypeError)
    else
      var s := books[data.symbol];
      var updated := ExecuteAt(SideOf(s, data.side), data.price, data.quantity);
      if data.price !in SideOf(s, data.side) then Success(books)
      else Success(books[data.symbol := WithSide(s, data.side, updated)])
  }

  /** Adding `quantity` at `price` and executing it again restores the
      level map, provided the level did not already hold exactly 0. */
  lemma AddThenExecuteRestores(m: Levels, price: int, quantity: int)
    requires price in m ==> m[price] != 0
    ensures ExecuteAt(AddQuantity(m, price, quantity), price, quantity) == m
  {
  }

  /** A level left at exactly 0 is not restored: the execution deletes it. */
  lemma ZeroLevelIsNotRestored()
    ensures ExecuteAt(AddQuantity(map[100 := 0], 100, 5), 100, 5) == map[]
  {
  }

  /** An order of `quantity` at `price` followed by its execution on the
      same side leaves the whole book as it was, given no zero level. */
  lemma OrderThenExecutionRestores(books: LevelBooks, symbol: string, side: string,
                                   price: int, quantity: int)
    requires symbol in books
    requires side == "bid" || side == "ask"
    requires price in SideOf(books[symbol], side) ==> SideOf(books[symbol], side)[price] != 0
    ensures ProcessOrder(books, OrderData(price, symbol, quantity, side)).Success?
    ensures ProcessExecution(ProcessOrder(books, OrderData(price, symbol, quantity, side)).value,
                             ExecutionData(price, symbol, quantity, side))
            == Success(books)
  {
    var s := books[symbol];
    var m := SideOf(s, side);
    AddThenExecuteRestores(m, price, quantity);
    var afterOrder := ProcessOrder(books, OrderData(price, symbol, quantity, side)).value;
    assert SideOf(afterOrder[symbol], side) == AddQuantity(m, price, quantity);
    var afterExec := ProcessExecution(afterOrder, ExecutionData(price, symbol, quantity, side)).value;
    assert afterExec[symbol] == s;
    assert afterExec == books;
  }
}

=== FILE: messages.dfy ===
/** The JSON records that travel between the services. */
module Messages {
  import opened Outcomes

  /** A parsed JSON value. Numbers are modelled as integers; `NaN` is kept
      because numeric conversion can produce it. */
  datatype Json = JNull | JBool(b: bool) | JNum(n: int) | JNaN | JStr(s: string)

  /** A JSON object: field name to value; a missing field reads as `undefined`. */
  type Record = map<string, Json>

  /** Reads a field, `None` standing for `undefined`. */
  function Field(r: Record, name: string): Option<Json>
  {
    if name in r then Some(r[name]) else None
  }
}

=== FILE: order_book.dfy ===
/**
  The order book kept in the market-data publisher's directory: a
  per-symbol book of individual resting orders.
  Each symbol owns an ask side and a bid side. A side is a priority heap in
  orderbook.js; here it is the sequence of the heap's nodes, and every
  property is stated about the orders it holds, so the heap's internal
  arrangement does not matter.
 */
module OrderBook {
  import opened Outcomes

  /** One resting order. `side` is the raw side string; every constructor
      argument has its own default. */
  datatype Order = Order(side: string := "", price: int := 0, quantity: int := 0, secnum: int := 0)

  /** The two heaps of one symbol. */
  datatype Sides = Sides(asks: seq<Order>, bids: seq<Order>)

  /** Symbol to its two sides. */
  type Book = map<string, Sides>

  /** An order built with every constructor argument left at its default. */
  function DefaultOrder(): (o: Order)
    ensures o.side == "" && o.price == 0 && o.quantity == 0 && o.secnum == 0
  {
    Order()
  }

  /** Each argument defaults on its own: leaving out the trailing ones zeroes
      only those. */
  lemma OrderArgumentsDefaultSeparately(side: string, price: int)
    ensures var o := Order(side, price);
            o.side == side && o.price == price && o.quantity == 0 && o.secnum == 0
  {
  }

  // ---------------------------------------------------------------------
  // Construction

  /** A book for the given symbols (none by default), each with two empty heaps. */
  function NewBook(symbols: seq<string> := []): (b: Book)
    ensures forall s :: s in b <==> s in symbols
    ensures forall s :: s in b ==> b[s].asks == [] && b[s].bids == []
  {
    map s | s in symbols :: Sides([], [])
  }

  // ---------------------------------------------------------------------
  // Heap ordering

  /** Which heap a comparator belongs to. */
  datatype Heap = AskHeap | BidHeap

  /** The heap comparator: negative when `a` ranks before `b`. Asks form a
      min-heap on price and bids a max-heap on price; nothing but the price
      is compared. */
  function Compare(h: Heap, a: Order, b: Order): (r: int)
    ensures r == 0 <==> a.price == b.price
    ensures h == AskHeap ==> (r < 0 <==> a.price < b.price)
    ensures h == BidHeap ==> (r < 0 <==> a.price > b.price)
  {
    match h
    case AskHeap => a.price - b.price
    case BidHeap => b.price - a.price
  }

  /** `o` is a possible heap top: no order in `s` ranks strictly before it. */
  predicate IsTop(h: Heap, o: Order, s: seq<Order>)
  {
    o in s && forall x :: x in s ==> Compare(h, o, x) <= 0
  }

  /** The order the heap would hand out first (among equally ranked orders,
      the first in the sequence; the heap library leaves that choice open). */
  function Top(h: Heap, s: seq<Order>): (r: Option<Order>)
    ensures r.None? <==> |s| == 0
    ensures r.Some? ==> IsTop(h, r.value, s)
  {
    if |s| == 0 then None
    else
      assert forall x :: x in s ==> x == s[0] || x in s[1..];
      match Top(h, s[1..])
      case None => Some(s[0])
      case Some(t) => if Compare(h, s[0], t) <= 0 then Some(s[0]) else Some(t)
  }

  /** The best ask is exactly an ask of minimum price. */
  lemma BestAskIsMinPrice(o: Order, s: seq<Order>)
    ensures IsTop(AskHeap, o, s) <==> (o in s && forall x :: x in s ==> o.price <= x.price)
  {
  }

  /** The best bid is exactly a bid of maximum price. */
  lemma BestBidIsMaxPrice(o: Order, s: seq<Order>)
    ensures IsTop(BidHeap, o, s) <==> (o in s && forall x :: x in s ==> x.price <= o.price)
  {
  }

  /** Only price is compared: any order at the top's price may come out
      first, whatever its sequence number. */
  lemma TopIgnoresSecnum(h: Heap, o: Order, o': Order, s: seq<Order>)
    requires IsTop(h, o, s)
    requires o' in s && o'.price == o.price
    ensures IsTop(h, o', s)
    ensures Compare(h, o, o') == 0 && Compare(h, o', o) == 0
  {
  }

  /** Two asks at one price, the later one first in the heap: the later one
      is a legitimate top, so arrival time gives no priority. */
  lemma LaterAskCanBeTop()
    ensures var early := Order("ask", 100, 5, 1);
            var late := Order("ask", 100, 5, 2);
            Top(AskHeap, [late, early]) == Some(late)
  {
  }

  // ---------------------------------------------------------------------
  // Insertion

  /** Pushes `order` onto the heap its side names; an unknown symbol or a
      side other than "ask" and "bid" leaves the book as it was. */
  function AddOrder(book: Book, symbol: string, order: Order): (r: Book)
    ensures r.Keys == book.Keys
    ensures symbol !in book ==> r == book
    ensures order.side != "ask" && order.side != "bid" ==> r == book
    ensures forall s :: s in book && s != symbol ==> r[s] == book[s]
    ensures symbol in book && order.side == "ask" ==>
              && multiset(r[symbol].asks) == multiset(book[symbol].asks) + multiset{order}
              && r[symbol].bids == book[symbol].bids
    ensures symbol in book && order.side == "bid" ==>
              && multiset(r[symbol].bids) == multiset(book[symbol].bids) + multiset{order}
              && r[symbol].asks == book[symbol].asks
  {
    if symbol !in book then book
    else
      var sides := book[symbol];
      if order.side == "ask" then book[symbol := sides.(asks := sides.asks + [order])]
      else if order.side == "bid" then book[symbol := sides.(bids := sides.bids + [order])]
      else book
  }

  // ---------------------------------------------------------------------
  // Lookup by sequence number

  /** No order of `heap` carries `secnum`. */
  predicate Absent(heap: seq<Order>, secnum: int)
  {
    forall k :: 0 <= k < |heap| ==> heap[k].secnum != secnum
  }

  /** `i` is the first position of `heap` whose order carries `secnum`. */
  predicate FirstWith(heap: seq<Order>, secnum: int, i: int)
  {
    && 0 <= i < |heap|
    && heap[i].secnum == secnum
    && forall k :: 0 <= k < i ==> heap[k].secnum != secnum
  }

  /** The scan loop from position `i` on, every earlier position already
      known not to match. */
  function ScanFrom(heap: seq<Order>, secnum: int, i: nat): (r: int)
    requires i <= |heap|
    requires forall k :: 0 <= k < i ==> heap[k].secnum != secnum
    ensures r == -1 <==> Absent(heap, secnum)
    ensures r != -1 ==> FirstWith(heap, secnum, r)
    decreases |heap| - i
  {
    if i == |heap| then -1
    else if heap[i].secnum == secnum then i
    else ScanFrom(heap, secnum, i + 1)
  }

  /** The position of the first order carrying `secnum`, or -1 when none
      does (the intended reading of the field the loop inspects). */
  function FindOrderIndex(heap: seq<Order>, secnum: int): (r: int)
    ensures -1 <= r < |heap|
    ensures r == -1 <==> Absent(heap, secnum)
    ensures r != -1 ==> FirstWith(heap, secnum, r)
  {
    ScanFrom(heap, secnum, 0)
  }

  /** The loop as written reads `nodes[i].order.secnum`, but the heap holds
      the orders themselves, so `nodes[i].order` is undefined and the read
      throws on the first iteration: only an empty heap gets an answer. */
  function FindOrderIndexAsWritten(heap: seq<Order>, secnum: int): (r: Result<int, JsError>)
    ensures r.Success? <==> |heap| == 0
    ensures r.Success? ==> r.value == -1
    ensures r.Failure? ==> r.error == TypeError
  {
    if |heap| == 0 then Success(-1) else Failure(TypeError)
  }

  /** The order with sequence number 1 sits at position 0, yet the loop as
      written throws instead of answering 0. */
  lemma FindOrderIndexAsWrittenMissesOrder()
    ensures var heap := [Order("ask", 100, 5, 1)];
            && FindOrderIndex(heap, 1) == 0
            && FindOrderIndexAsWritten(heap, 1) == Failure(TypeError)
  {
  }

  // ---------------------------------------------------------------------
  // Reduce or remove

  /** Every order has a positive quantity. */
  predicate AllPositive(heap: seq<Order>)
  {
    forall k :: 0 <= k < |heap| ==> heap[k].quantity > 0
  }

  /** Reduces the first order carrying `secnum` by `quantityToRemove` when it
      holds more than that, and otherwise removes exactly that order. */
  function AdjustSide(heap: seq<Order>, secnum: int, quantityToRemove: int): (after: seq<Order>)
    ensures Absent(heap, secnum) ==> after == heap
    ensures forall i | FirstWith(heap, secnum, i) && heap[i].quantity > quantityToRemove ::
              && |after| == |heap|
              && after[i] == heap[i].(quantity := heap[i].quantity - quantityToRemove)
              && forall k :: 0 <= k < |heap| && k != i ==> after[k] == heap[k]
    ensures forall i | FirstWith(heap, secnum, i) && heap[i].quantity <= quantityToRemove ::
              after == heap[..i] + heap[i + 1..]
    ensures AllPositive(heap) ==> AllPositive(after)
  {
    var i := FindOrderIndex(heap, secnum);
    if i == -1 then heap
    else if heap[i].quantity > quantityToRemove then
      heap[i := heap[i].(quantity := heap[i].quantity - quantityToRemove)]
    else
      heap[..i] + heap[i + 1..]
  }

  /** Removing an order keeps every other order: the heap loses exactly one
      copy of the removed order. */
  lemma RemovalKeepsOthers(heap: seq<Order>, secnum: int, quantityToRemove: int, i: int)
    requires FirstWith(heap, secnum, i) && heap[i].quantity <= quantityToRemove
    ensures multiset(AdjustSide(heap, secnum, quantityToRemove)) + multiset{heap[i]} == multiset(heap)
    ensures |AdjustSide(heap, secnum, quantityToRemove)| == |heap| - 1
  {
    assert heap == heap[..i] + [heap[i]] + heap[i + 1..];
  }

  /** Reducing an order keeps the total quantity bookkeeping exact: the side's
      total drops by precisely the amount removed. */
  lemma ReductionLowersTotal(heap: seq<Order>, secnum: int, quantityToRemove: int, i: int)
    requires FirstWith(heap, secnum, i) && heap[i].quantity > quantityToRemove
    ensures Total(AdjustSide(heap, secnum, quantityToRemove)) == Total(heap) - quantityToRemove
  {
    var after := AdjustSide(heap, secnum, quantityToRemove);
    TotalSplit(heap, i);
    TotalSplit(after, i);
    assert after[..i] == heap[..i];
    assert after[i + 1..] == heap[i + 1..];
  }

  /** Sum of the quantities of a heap. */
  function Total(heap: seq<Order>): int
  {
    if |heap| == 0 then 0 else heap[0].quantity + Total(heap[1..])
  }

  /** The total splits around any position. */
  lemma {:induction false} TotalSplit(heap: seq<Order>, i: int)
    requires 0 <= i < |heap|
    ensures Total(heap) == Total(heap[..i]) + heap[i].quantity + Total(heap[i + 1..])
    decreases i
  {
    if i > 0 {
      TotalSplit(heap[1..], i - 1);
      assert heap[1..][..i - 1] == heap[1..i];
      assert heap[1..][i - 1] == heap[i];
      assert heap[1..][i..] == heap[i + 1..];
      assert heap[..i][1..] == heap[1..i];
    } else {
      assert heap[1..] == heap[i + 1..];
    }
  }

  /** Reduce-or-remove on a symbol's book, with the intended reads: the book
      map, the order's own `secnum`, and removal of exactly the matched order.
      A side of "ask" addresses the asks; any other side the bids. */
  function AdjustOrRemoveOrder(book: Book, symbol: string, side: string, secnum: int,
                               quantityToRemove: int): (r: Book)
    ensures r.Keys == book.Keys
    ensures symbol !in book ==> r == book
    ensures forall s :: s in book && s != symbol ==> r[s] == book[s]
    ensures symbol in book && side == "ask" ==>
              && r[symbol].bids == book[symbol].bids
              && r[symbol].asks == AdjustSide(book[symbol].asks, secnum, quantityToRemove)
    ensures symbol in book && side != "ask" ==>
              && r[symbol].asks == book[symbol].asks
              && r[symbol].bids == AdjustSide(book[symbol].bids, secnum, quantityToRemove)
  {
    if symbol !in book then book
    else
      var sides := book[symbol];
      if side == "ask" then
        book[symbol := sides.(asks := AdjustSide(sides.asks, secnum, quantityToRemove))]
      else
        book[symbol := sides.(bids := AdjustSide(sides.bids, secnum, quantityToRemove))]
  }

  /** An unknown sequence number leaves the whole book unchanged. */
  lemma AdjustUnknownSecnumIsNoOp(book: Book, symbol: string, side: string, secnum: int,
                                  quantityToRemove: int)
    requires symbol in book
    requires Absent(if side == "ask" then book[symbol].asks else book[symbol].bids, secnum)
    ensures AdjustOrRemoveOrder(book, symbol, side, secnum, quantityToRemove) == book
  {
  }

  /** The method as written reads `this.symbol_order_book`, which the book
      never defines, and then a property of that undefined value: every call
      throws before the book is looked at. */
  function AdjustOrRemoveOrderAsWritten(book: Book, symbol: string, side: string, secnum: int,
                                        quantityToRemove: int): (r: Result<Book, JsError>)
    ensures r.Failure? && r.error == TypeError
  {
    Failure(TypeError)
  }

  /** A book holding ask 1 for 5: the intended call leaves it at 3, the
      code as written throws instead. */
  lemma AdjustAsWrittenNeverAdjusts()
    ensures var book := AddOrder(NewBook(["AAPL"]), "AAPL", Order("ask", 100, 5, 1));
            && AdjustOrRemoveOrder(book, "AAPL", "ask", 1, 2)["AAPL"].asks == [Order("ask", 100, 3, 1)]
            && AdjustOrRemoveOrderAsWritten(book, "AAPL", "ask", 1, 2).Failure?
  {
  }

  // ---------------------------------------------------------------------
  // Snapshot

  /** Ascending by price. */
  predicate SortedByPrice(s: seq<Order>)
  {
    forall i, j :: 0 <= i < j < |s| ==> s[i].price <= s[j].price
  }

  /** Places `o` before the first order of `s` that is not cheaper. */
  function InsertByPrice(o: Order, s: seq<Order>): (r: seq<Order>)
    requires SortedByPrice(s)
    ensures SortedByPrice(r)
    ensures multiset(r) == multiset(s) + multiset{o}
  {
    if |s| == 0 then [o]
    else if o.price <= s[0].price then [o] + s
    else
      var rest := InsertByPrice(o, s[1..]);
      assert s == [s[0]] + s[1..];
      HeadBoundsInsertion(s, o, rest);
      SortedCons(s[0], rest);
      [s[0]] + rest
  }

  /** The head of a sorted side is no dearer than anything an insertion
      into its tail produces, when the inserted order is dearer. */
  lemma HeadBoundsInsertion(s: seq<Order>, o: Order, rest: seq<Order>)
    requires |s| > 0 && SortedByPrice(s)
    requires s[0].price < o.price
    requires multiset(rest) == multiset(s[1..]) + multiset{o}
    ensures forall j :: 0 <= j < |rest| ==> s[0].price <= rest[j].price
  {
    forall j | 0 <= j < |rest| ensures s[0].price <= rest[j].price {
      assert rest[j] in multiset(rest);
      if rest[j] != o {
        assert rest[j] in multiset(s[1..]);
        var k :| 0 <= k < |s[1..]| && s[1..][k] == rest[j];
        assert s[k + 1] == rest[j];
      }
    }
  }

  /** Prepending an order no dearer than any other keeps a sequence sorted. */
  lemma SortedCons(a: Order, rest: seq<Order>)
    requires SortedByPrice(rest)
    requires forall j :: 0 <= j < |rest| ==> a.price <= rest[j].price
    ensures SortedByPrice([a] + rest)
  {
  }

  /** The array sort with comparator `a.price - b.price`: a stable sort
      ascending by price. */
  function SortByPrice(s: seq<Order>): (r: seq<Order>)
    ensures SortedByPrice(r)
    ensures multiset(r) == multiset(s)
  {
    if |s| == 0 then []
    else
      assert s == [s[0]] + s[1..];
      InsertByPrice(s[0], SortByPrice(s[1..]))
  }

  /** The published form of the book: for every symbol, both sides as arrays
      sorted ascending by price (bids included). */
  function ToJson(book: Book): (snap: map<string, Sides>)
    ensures snap.Keys == book.Keys
    ensures forall s :: s in snap ==>
              && SortedByPrice(snap[s].asks) && multiset(snap[s].asks) == multiset(book[s].asks)
              && SortedByPrice(snap[s].bids) && multiset(snap[s].bids) == multiset(book[s].bids)
  {
    map s | s in book :: Sides(SortByPrice(book[s].asks), SortByPrice(book[s].bids))
  }

  /** A sorted permutation of a side begins at its lowest price and ends at
      its highest. */
  lemma SortedPermutationEnds(s: seq<Order>, r: seq<Order>)
    requires |s| > 0 && SortedByPrice(r) && multiset(r) == multiset(s)
    ensures |r| > 0 && r[0] in s && r[|r| - 1] in s
    ensures forall x :: x in s ==> r[0].price <= x.price <= r[|r| - 1].price
  {
    assert s[0] in multiset(r);
    assert r[0] in multiset(s);
    assert r[|r| - 1] in multiset(s);
    forall x | x in s ensures r[0].price <= x.price <= r[|r| - 1].price {
      assert x in multiset(r);
      var k :| 0 <= k < |r| && r[k] == x;
    }
  }

  /** A sorted copy of a non-empty side starts at the best ask's price and
      ends at the best bid's price. */
  lemma SortedEnds(s: seq<Order>)
    requires |s| > 0
    ensures |SortByPrice(s)| > 0
    ensures SortByPrice(s)[0].price == Top(AskHeap, s).value.price
    ensures SortByPrice(s)[|SortByPrice(s)| - 1].price == Top(BidHeap, s).value.price
  {
    var r := SortByPrice(s);
    SortedPermutationEnds(s, r);
    var lo := Top(AskHeap, s).value;
    var hi := Top(BidHeap, s).value;
    assert IsTop(AskHeap, lo, s) && IsTop(BidHeap, hi, s);
    assert Compare(AskHeap, lo, r[0]) <= 0;
    assert Compare(BidHeap, hi, r[|r| - 1]) <= 0;
  }

  /** The published asks start at the best ask's price and the published
      bids end at the best bid's price: the bids come out worst first. */
  lemma SnapshotEndsAtTops(book: Book, symbol: string)
    requires symbol in book
    ensures var asks := book[symbol].asks;
            var snap := ToJson(book)[symbol].asks;
            |asks| > 0 ==> |snap| > 0 && snap[0].price == Top(AskHeap, asks).value.price
    ensures var bids := book[symbol].bids;
            var snap := ToJson(book)[symbol].bids;
            |bids| > 0 ==> |snap| > 0 && snap[|snap| - 1].price == Top(BidHeap, bids).value.price
  {
    var snap := ToJson(book);
    assert snap[symbol] == Sides(SortByPrice(book[symbol].asks), SortByPrice(book[symbol].bids));
    if |book[symbol].asks| > 0 {
      SortedEnds(book[symbol].asks);
    }
    if |book[symbol].bids| > 0 {
      SortedEnds(book[symbol].bids);
    }
  }
}

=== FILE: order_manager.dfy ===
/**
  The order manager's sequencing: a counter stamps every admitted order with
  the next sequence number and strips the fields the matching side does not
  need.
 */
module OrderManager {
  import opened Outcomes
  import opened Messages

  /** The sequential number generator; `current` is the next value handed out. */
  datatype Generator = Generator(current: int)

  /** A generator starting at `start`, 1 when no start is given. */
  function NewGenerator(start: int := 1): (g: Generator)
    ensures g.current == start
  {
    Generator(start)
  }

  /** Hands out the current value and advances the counter by exactly one. */
  function GetNext(g: Generator): (r: (int, Generator))
    ensures r.0 == g.current
    ensures r.1.current == r.0 + 1
  {
    (g.current, Generator(g.current + 1))
  }

  /** A generator built without a start hands out 1 first. */
  lemma DefaultGeneratorStartsAtOne()
    ensures GetNext(NewGenerator()).0 == 1
  {
  }

  /** `n` successive calls: the values handed out, and the generator after. */
  function Draw(g: Generator, n: nat): (r: (seq<int>, Generator))
    ensures |r.0| == n
    ensures forall i :: 0 <= i < n ==> r.0[i] == g.current + i
    ensures r.1.current == g.current + n
    decreases n
  {
    if n == 0 then ([], g)
    else
      var (v, g') := GetNext(g);
      var (rest, g'') := Draw(g', n - 1);
      ([v] + rest, g'')
  }

  /** No value is handed out twice, and values come out strictly increasing. */
  lemma DrawNeverRepeats(g: Generator, n: nat)
    ensures forall i, j :: 0 <= i < j < n ==> Draw(g, n).0[i] < Draw(g, n).0[j]
    ensures forall i, j :: 0 <= i < n && 0 <= j < n && i != j ==> Draw(g, n).0[i] != Draw(g, n).0[j]
  {
  }

  /** Drawing `m` values and then `n` more is the same as drawing `m + n`. */
  lemma DrawComposes(g: Generator, m: nat, n: nat)
    ensures Draw(Draw(g, m).1, n).1 == Draw(g, m + n).1
    ensures Draw(g, m).0 + Draw(Draw(g, m).1, n).0 == Draw(g, m + n).0
  {
  }

  /** Field names the order manager reads and writes. */
  const IdField := "id"
  const PriceField := "price"
  const QuantityField := "quantity"
  const Stripped: set<string> := {"user_id", "timestamp_ns", "trader_type"}

  /** Stamps `order` with the next sequence number as `id`, converts price
      and quantity with the given conversions (`parseFloat`, `parseInt`),
      and deletes `user_id`, `timestamp_ns` and `trader_type`. Every other
      field is kept as it was. */
  function ProcessOrder(g: Generator, order: Record,
                        parseFloat: Option<Json> -> Json, parseInt: Option<Json> -> Json)
    : (r: (Record, Generator))
    ensures r.0.Keys == (order.Keys + {IdField, PriceField, QuantityField}) - Stripped
    ensures r.0[IdField] == JNum(g.current)
    ensures r.0[PriceField] == parseFloat(Field(order, PriceField))
    ensures r.0[QuantityField] == parseInt(Field(order, QuantityField))
    ensures forall k :: k in r.0 && k !in {IdField, PriceField, QuantityField} ==> r.0[k] == order[k]
    ensures "symbol" in order ==> r.0["symbol"] == order["symbol"]
    ensures "order_type" in order ==> r.0["order_type"] == order["order_type"]
    ensures r.1.current == g.current + 1
  {
    var (id, g') := GetNext(g);
    var stamped := order[IdField := JNum(id)];
    var converted := stamped[PriceField := parseFloat(Field(stamped, PriceField))]
                            [QuantityField := parseInt(Field(stamped, QuantityField))];
    (converted - Stripped, g')
  }

  /** Processes orders one after another with one generator. */
  function ProcessOrders(g: Generator, orders: seq<Record>,
                         parseFloat: Option<Json> -> Json, parseInt: Option<Json> -> Json)
    : (r: (seq<Record>, Generator))
    ensures |r.0| == |orders|
    ensures forall i :: 0 <= i < |orders| ==> IdField in r.0[i] && r.0[i][IdField] == JNum(g.current + i)
    ensures r.1.current == g.current + |orders|
    decreases |orders|
  {
    if |orders| == 0 then ([], g)
    else
      var (first, g') := ProcessOrder(g, orders[0], parseFloat, parseInt);
      var (rest, g'') := ProcessOrders(g', orders[1..], parseFloat, parseInt);
      ([first] + rest, g'')
  }

  /** The i-th processed order is the i-th input stamped by a generator
      that has already handed out i values: every conversion, deletion and
      kept field of `ProcessOrder` carries over to each order of the batch. */
  lemma {:induction false} ProcessOrdersElementwise(g: Generator, orders: seq<Record>,
                                                    parseFloat: Option<Json> -> Json,
                                                    parseInt: Option<Json> -> Json)
    ensures forall i :: 0 <= i < |orders| ==>
              ProcessOrders(g, orders, parseFloat, parseInt).0[i]
              == ProcessOrder(Generator(g.current + i), orders[i], parseFloat, parseInt).0
    decreases |orders|
  {
    if |orders| > 0 {
      ProcessOrdersElementwise(Generator(g.current + 1), orders[1..], parseFloat, parseInt);
    }
  }

  /** Orders processed in sequence get strictly increasing ids. */
  lemma ProcessedIdsIncrease(g: Generator, orders: seq<Record>,
                             parseFloat: Option<Json> -> Json, parseInt: Option<Json> -> Json,
                             i: int, j: int)
    requires 0 <= i < j < |orders|
    ensures var out := ProcessOrders(g, orders, parseFloat, parseInt).0;
            IdField in out[i] && IdField in out[j] && out[i][IdField].JNum? && out[j][IdField].JNum?
            && out[i][IdField].n < out[j][IdField].n
  {
  }
}

=== FILE: order_streamer.dfy ===
/**
  The order streamer's line parser: a CSV line splits on commas into the
  seven fields of one client order. There is no quoting.
 */
module OrderStreamer {
  import opened Outcomes
  import opened Messages

  /** A parsed line; every field is the verbatim text between commas. */
  datatype StreamedOrder = StreamedOrder(
    userId: string, timestampNs: string, price: string, symbol: string,
    quantity: string, orderType: string, traderType: string)

  /** Number of commas in `s`. */
  function CommaCount(s: string): nat
  {
    if |s| == 0 then 0 else (if s[0] == ',' then 1 else 0) + CommaCount(s[1..])
  }

  /** `s` holds no comma. */
  predicate CommaFree(s: string)
  {
    forall k :: 0 <= k < |s| ==> s[k] != ','
  }

  /** `line.split(",")`: the pieces between commas, always at least one, one
      more than there are commas, none containing a comma. */
  function Split(line: string): (r: seq<string>)
    ensures |r| == CommaCount(line) + 1
    ensures forall i :: 0 <= i < |r| ==> CommaFree(r[i])
  {
    if |line| == 0 then [""]
    else if line[0] == ',' then [""] + Split(line[1..])
    else
      var rest := Split(line[1..]);
      [[line[0]] + rest[0]] + rest[1..]
  }

  /** `fields.join(",")`. */
  function Join(fields: seq<string>): string
    requires |fields| > 0
  {
    if |fields| == 1 then fields[0] else fields[0] + "," + Join(fields[1..])
  }

  /** A comma-free piece is a whole field. */
  lemma {:induction false} SplitCommaFree(s: string)
    requires CommaFree(s)
    ensures Split(s) == [s]
  {
    if |s| > 0 {
      SplitCommaFree(s[1..]);
      assert [s[0]] + s[1..] == s;
    }
  }

  /** A comma-free prefix followed by a comma becomes the first field. */
  lemma {:induction false} SplitAtFirstComma(x: string, rest: string)
    requires CommaFree(x)
    ensures Split(x + "," + rest) == [x] + Split(rest)
  {
    if |x| == 0 {
      assert x + "," + rest == [','] + rest;
      assert (x + "," + rest)[1..] == rest;
    } else {
      SplitAtFirstComma(x[1..], rest);
      assert (x + "," + rest)[1..] == x[1..] + "," + rest;
      assert [x[0]] + x[1..] == x;
    }
  }

  /** Splitting the join of comma-free fields gives back the fields. */
  lemma {:induction false} SplitJoin(fields: seq<string>)
    requires |fields| > 0
    requires forall i :: 0 <= i < |fields| ==> CommaFree(fields[i])
    ensures Split(Join(fields)) == fields
    decreases |fields|
  {
    if |fields| == 1 {
      SplitCommaFree(fields[0]);
    } else {
      SplitJoin(fields[1..]);
      SplitAtFirstComma(fields[0], Join(fields[1..]));
      assert [fields[0]] + fields[1..] == fields;
    }
  }

  /** Joining the pieces of a split gives back the line. */
  lemma {:induction false} JoinSplit(line: string)
    ensures Join(Split(line)) == line
  {
    if |line| > 0 {
      JoinSplit(line[1..]);
      var rest := Split(line[1..]);
      if line[0] == ',' {
        assert Split(line) == [""] + rest;
        assert ([""] + rest)[1..] == rest;
        assert [','] + line[1..] == line;
      } else {
        var r := Split(line);
        assert r == [[line[0]] + rest[0]] + rest[1..];
        if |rest| == 1 {
          assert [line[0]] + line[1..] == line;
        } else {
          assert r[1..] == rest[1..];
          assert Join(rest) == rest[0] + "," + Join(rest[1..]);
          assert [line[0]] + line[1..] == line;
        }
      }
    }
  }

  /** Parses one line: exactly seven fields, else the assertion throws. */
  function ParseLine(line: string): (r: Result<StreamedOrder, JsError>)
    ensures r.Failure? <==> |Split(line)| != 7
    ensures r.Failure? ==> r.error == AssertionError
    ensures r.Success? ==>
              var f := Split(line);
              r.value == StreamedOrder(f[0], f[1], f[2], f[3], f[4], f[5], f[6])
  {
    var fields := Split(line);
    if |fields| != 7 then Failure(AssertionError)
    else Success(StreamedOrder(fields[0], fields[1], fields[2], fields[3],
                               fields[4], fields[5], fields[6]))
  }

  /** A line parses exactly when it holds six commas. */
  lemma ParseLineAcceptsSixCommas(line: string)
    ensures ParseLine(line).Success? <==> CommaCount(line) == 6
  {
  }

  /** The seven fields of an order, in column order. */
  function Fields(o: StreamedOrder): seq<string>
  {
    [o.userId, o.timestampNs, o.price, o.symbol, o.quantity, o.orderType, o.traderType]
  }

  /** Writing the seven comma-free fields of an order as a line and parsing
      it gives the same order back. */
  lemma ParseFormatRoundTrip(o: StreamedOrder)
    requires forall i :: 0 <= i < 7 ==> CommaFree(Fields(o)[i])
    ensures ParseLine(Join(Fields(o))) == Success(o)
  {
    SplitJoin(Fields(o));
  }

  /** A comma inside any field pushes the line past seven fields: rejected. */
  lemma CommaInFieldIsRejected(fields: seq<string>, i: int)
    requires |fields| == 7 && 0 <= i < 7 && !CommaFree(fields[i])
    ensures ParseLine(Join(fields)) == Failure(AssertionError)
  {
    JoinCommas(fields);
    var k :| 0 <= k < |fields[i]| && fields[i][k] == ',';
    CommaCountPositive(fields[i], k);
    FieldCommasBounded(fields, i);
  }

  /** The commas of a join: the separators plus those inside the fields. */
  lemma {:induction false} JoinCommas(fields: seq<string>)
    requires |fields| > 0
    ensures CommaCount(Join(fields)) == |fields| - 1 + SumCommas(fields)
    decreases |fields|
  {
    if |fields| > 1 {
      JoinCommas(fields[1..]);
      CommaCountAppend(fields[0], "," + Join(fields[1..]));
      CommaCountAppend(",", Join(fields[1..]));
      assert fields[0] + "," + Join(fields[1..]) == fields[0] + ("," + Join(fields[1..]));
    }
  }

  /** Commas summed over the fields. */
  function SumCommas(fields: seq<string>): nat
  {
    if |fields| == 0 then 0 else CommaCount(fields[0]) + SumCommas(fields[1..])
  }

  /** Commas of a concatenation add up. */
  lemma {:induction false} CommaCountAppend(a: string, b: string)
    ensures CommaCount(a + b) == CommaCount(a) + CommaCount(b)
  {
    if |a| > 0 {
      CommaCountAppend(a[1..], b);
      assert (a + b)[1..] == a[1..] + b;
    } else {
      assert a + b == b;
    }
  }

  /** A string with a comma at `k` has at least one comma. */
  lemma {:induction false} CommaCountPositive(s: string, k: int)
    requires 0 <= k < |s| && s[k] == ','
    ensures CommaCount(s) > 0
  {
    if k > 0 {
      CommaCountPositive(s[1..], k - 1);
    }
  }

  /** One field's commas are part of the sum. */
  lemma {:induction false} FieldCommasBounded(fields: seq<string>, i: int)
    requires 0 <= i < |fields|
    ensures CommaCount(fields[i]) <= SumCommas(fields)
  {
    if i > 0 {
      FieldCommasBounded(fields[1..], i - 1);
    }
  }

  /** The column names, in line order. */
  const Columns: seq<string> :=
    ["user_id", "timestamp_ns", "price", "symbol", "quantity", "order_type", "trader_type"]

  /** The order as a JSON object: the i-th field, as a string, under the i-th
      column name, and nothing else. */
  function ToRecord(o: StreamedOrder): (r: Record)
    ensures forall k :: k in r <==> k in Columns
    ensures forall i :: 0 <= i < 7 ==> r[Columns[i]] == JStr(Fields(o)[i])
  {
    map[
      "user_id" := JStr(o.userId),
      "timestamp_ns" := JStr(o.timestampNs),
      "price" := JStr(o.price),
      "symbol" := JStr(o.symbol),
      "quantity" := JStr(o.quantity),
      "order_type" := JStr(o.orderType),
      "trader_type" := JStr(o.traderType)
    ]
  }

  /** Field i of a parsed line lands, verbatim, under column i. */
  lemma ParsedLineColumns(line: string, i: int)
    requires ParseLine(line).Success? && 0 <= i < 7
    ensures ToRecord(ParseLine(line).value)[Columns[i]] == JStr(Split(line)[i])
  {
  }
}

=== FILE: outcomes.dfy ===
/** Failure-carrying datatypes shared by every module of the model. */
module Outcomes {

  /** A value that may be absent (a JavaScript `undefined` field or map entry). */
  datatype Option<+T> = None | Some(value: T)

  /** The normal result of an operation, or the exception it raises. */
  datatype Result<+T, +E> = Success(value: T) | Failure(error: E)

  /** The JavaScript exceptions the modelled code can raise. */
  datatype JsError =
    | TypeError       // a property read on `undefined`
    | ReferenceError  // a read of an undeclared identifier
    | AssertionError  // a failed `assert.equal`
}
